=== FILE: README.md ===
# AGS bitmap primitives and screen transitions, modelled in Dafny

This project models two pieces of the AGS engine's compatibility layer in ScummVM.

- **Allegro-style bitmap primitives** (module `Gfx`, `gfx.dfy`). A bitmap is its width, its height, its pixel format and a grid of pixel values. It also carries clip bounds `(cl, ct, cr, cb)`, stored right- and bottom-exclusive. The model covers:
  - the inclusive-to-exclusive clip conversion and its inverse;
  - depth-dispatched `getpixel`/`putpixel`, the fixed-depth `_getpixel*`/`_putpixel*` variants, and the -1 sentinel;
  - corner normalisation for `rect` and `rectfill`;
  - the mask colour and the reported colour depth;
  - the arguments the blit and sprite wrappers pass to the surface's `draw` call.
- **Screen transitions** (module `Screen`, `screen.dfy`). The model covers:
  - `my_fade_in`;
  - `current_fade_out_effect`, as a decision (`ChooseFadeOut`) plus the calls and state change that follow from it;
  - `prepare_screen_for_transition_in`, which re-centres the saved crossfade snapshot vertically to the current viewport height.

Support modules:
- `Fallible` (`fallible.dfy`): `Option` stands for nullable pointers. `Outcome` stands for operations that can end in `error`, `quit` or a failed `assert`.
- `CInt` (`cint.dfy`): the C integer conversions the code relies on. These are truncation to 8, 16 or 32 bits when storing through a narrow pointer, reading a `uint32` back as `int` (two's complement), and division that truncates toward zero.

Foreign calls are not executed. Driver, palette and plugin calls become `DriverCall` values or host-supplied inputs (`Host`). `CopyScreenIntoBitmap` and `ReplaceBitmapWithSupportedFormat` become function parameters (`grab`, `toSupported`). The format's `RGBToColor` becomes an abstract `RgbEncoder`.

Points worth knowing:
- `getpixel` returns an `int`. On a 32-bit bitmap it returns the stored `uint32` read as `int`, so a pixel whose value is all ones reads as -1, the same as the out-of-range sentinel (`Gfx.SentinelAmbiguousAt32Bits`). On 8- and 16-bit bitmaps the sentinel is unambiguous (`Gfx.SentinelExactBelow32Bits`).
- `TRANSPARENT_COLOR` has type `uint32`, so `bitmap_mask_color` returns that value read as `int`. In a 32-bit format with an alpha channel the mask colour is therefore negative.
- Cropping a 100-row snapshot to a 60-row viewport keeps its rows 20..79 (`Screen.CentringExample`).
- `FADE_NORMAL`, `FADE_INSTANT`, `FADE_DISSOLVE`, `FADE_BOXOUT` and `FADE_CROSSFADE` take the engine's values 0 to 4. The header that defines them is not part of this model.

## Model

| member | source | states |
|---|---|---|
| `Gfx.MaskColor` | engines/ags/lib/allegro/gfx.cpp:38-39 | 0 for one-byte formats. Otherwise the format's encoding of RGB (255, 0, 255), read back as a C `int`. |
| `Gfx.MaskColorReadsBack` | engines/ags/lib/allegro/gfx.cpp:100-102 | Writing the mask colour with `putpixel` and reading it with `getpixel` yields the mask colour. This always holds at 8 and 32 bits, and at 16 bits when the pink encoding fits 16 bits. |
| `Gfx.ColorDepth` | engines/ags/lib/allegro/gfx.cpp:94-98 | 8 for one-byte formats. Otherwise the format's own `bpp()`. |
| `Gfx.SetClipRect` | engines/ags/lib/allegro/gfx.cpp:60-67 | Only the clip changes. Afterwards 0 ≤ cl ≤ w-1, 0 ≤ ct ≤ h-1, 0 ≤ cr ≤ w and 0 ≤ cb ≤ h. In-range corners are kept: cr = x2+1 and cb = y2+1. Out-of-range corners go to the stated bound on each side. The exception is x2 or y2 = INT_MAX: `x2 + 1` wraps to INT_MIN, so that bound becomes 0. |
| `Gfx.GetClipRect` | engines/ags/lib/allegro/gfx.cpp:69-78 | Null out-parameters stay unwritten. The others receive cl, ct, cr-1 and cb-1. |
| `Gfx.ClipRoundTrip` | engines/ags/lib/allegro/gfx.cpp:60-78 | For C `int` corners with 0≤x1<w, 0≤y1<h, -1≤x2<w and -1≤y2<h, reading back the clip returns exactly (x1, y1, x2, y2) through every non-null pointer. |
| `Gfx.ClipRoundTripClamped` | engines/ags/lib/allegro/gfx.cpp:60-78 | For any C `int` corners, reading back returns them clamped: left and top into [0, size-1], right and bottom into [-1, size-1]. The exception is a right or bottom corner of INT_MAX, whose `+ 1` wraps, so it reads back as -1. |
| `Gfx.ClipSetOfGet` | engines/ags/lib/allegro/gfx.cpp:60-78 | Setting the clip to what `get_clip_rect` reports leaves the bitmap unchanged, for every clip `set_clip_rect` can produce. |
| `Gfx.GetPixel` | engines/ags/lib/allegro/gfx.cpp:268-289 | Returns -1 for any x<0, y<0, x≥w or y≥h, without reading pixels. In bounds, it returns the stored value at 1 and 2 bytes per pixel and, at 4 bytes, the C `int` congruent to it modulo 2^32 (its two's-complement reading). Any other depth is fatal. |
| `Gfx.PutPixel` | engines/ags/lib/allegro/gfx.cpp:219-240 | In bounds, it stores the colour truncated to 8, 16 or 32 bits according to the depth. No other pixel and nothing else changes. At any other depth the bitmap is unchanged. The bitmap stays well formed. |
| `Gfx.PutThenGetPixel` | engines/ags/lib/allegro/gfx.cpp:223-289 | A read after a write returns the truncated colour. That is the colour itself when it fits 8 or 16 bits at those depths, and any C `int` colour at 32 bits. |
| `Gfx.PutPixelIsLocal` | engines/ags/lib/allegro/gfx.cpp:223-240 | After a write, every other point reads as before. |
| `Gfx.SentinelAmbiguousAt32Bits` | engines/ags/lib/allegro/gfx.cpp:271-283 | An in-bounds 32-bit pixel of value 0xFFFFFFFF reads as -1, like an out-of-range point. |
| `Gfx.SentinelExactBelow32Bits` | engines/ags/lib/allegro/gfx.cpp:271-281 | At 1 and 2 bytes per pixel, `getpixel` returns -1 exactly at out-of-range points. |
| `Gfx.GetPixel8` | engines/ags/lib/allegro/gfx.cpp:291-297 | -1 out of range. Otherwise the same value as `getpixel` on an 8-bit bitmap. |
| `Gfx.GetPixel15` | engines/ags/lib/allegro/gfx.cpp:299-301 | Always fatal, "Unsupported bpp". |
| `Gfx.GetPixel16` | engines/ags/lib/allegro/gfx.cpp:303-309 | -1 out of range. Otherwise the same value as `getpixel` on a 16-bit bitmap. |
| `Gfx.GetPixel24` | engines/ags/lib/allegro/gfx.cpp:311-313 | Always fatal, "Unsupported bpp". |
| `Gfx.GetPixel32` | engines/ags/lib/allegro/gfx.cpp:315-321 | -1 out of range. Otherwise the same value as `getpixel` on a 32-bit bitmap. |
| `Gfx.PutPixel8` | engines/ags/lib/allegro/gfx.cpp:242-246 | On an 8-bit bitmap, the same result as `putpixel`. |
| `Gfx.PutPixel15` | engines/ags/lib/allegro/gfx.cpp:248-250 | Always fatal, "Unsupported bpp". |
| `Gfx.PutPixel16` | engines/ags/lib/allegro/gfx.cpp:252-256 | On a 16-bit bitmap, the same result as `putpixel`. |
| `Gfx.PutPixel24` | engines/ags/lib/allegro/gfx.cpp:258-260 | Always fatal, "Unsupported bpp". |
| `Gfx.PutPixel32` | engines/ags/lib/allegro/gfx.cpp:262-266 | On a 32-bit bitmap, the same result as `putpixel`. |
| `Gfx.OrderedRect` | engines/ags/lib/allegro/gfx.cpp:330-334 | The rectangle is (min x, min y, max x+1, max y+1). It is at least 1×1 and contains exactly the points between the two corners, corners included. |
| `Gfx.DrawRect` | engines/ags/lib/allegro/gfx.cpp:328-335 | Requests an outline in the given colour over exactly the points between the corners. |
| `Gfx.DrawRectFill` | engines/ags/lib/allegro/gfx.cpp:337-344 | Requests a fill in the given colour over exactly the points between the corners. |
| `Gfx.RectCornerOrderIrrelevant` | engines/ags/lib/allegro/gfx.cpp:328-344 | Swapping the corners, or only their x or only their y coordinates, gives the same request. Outline and fill cover the same rectangle. |
| `Gfx.Line` | engines/ags/lib/allegro/gfx.cpp:323-326 | The endpoints and colour are forwarded unchanged. |
| `Gfx.Triangle` | engines/ags/lib/allegro/gfx.cpp:346-351 | Three lines in the colour, starting at the three vertices in order. Each line ends where the next begins, so the outline is closed. |
| `Gfx.Blit` | engines/ags/lib/allegro/gfx.cpp:104-108 | `dest`'s `draw` is called with `src` (drawn onto `dest`). The source and destination rectangles sit at the given corners with identical width and height. No flip, no mask, opaque. |
| `Gfx.StretchBlit` | engines/ags/lib/allegro/gfx.cpp:110-117 | `dest`'s `draw` is called with `src` (drawn onto `dest`). The source and destination rectangles are as given. No flip, no mask, opaque. |
| `Gfx.MaskedBlit` | engines/ags/lib/allegro/gfx.cpp:119-125 | Proceeds if and only if the source and destination formats are equal. It then makes, on `dest` with `src`, the `blit` request with masking on. |
| `Gfx.MaskedStretchBlit` | engines/ags/lib/allegro/gfx.cpp:127-134 | `dest`'s `draw` is called with `src` (drawn onto `dest`). The `stretch_blit` request with masking on. The formats are not checked. |
| `Gfx.DrawSprite` | engines/ags/lib/allegro/gfx.cpp:136-140 | `bmp`'s `draw` is called with `sprite` (the sprite is drawn onto `bmp`). The whole sprite, at its own size, placed at (x, y). Masked, unflipped, opaque. |
| `Gfx.StretchSprite` | engines/ags/lib/allegro/gfx.cpp:142-146 | `bmp`'s `draw` is called with `sprite` (the sprite is drawn onto `bmp`). The whole sprite into the w×h rectangle at (x, y). Masked, unflipped, opaque. |
| `Gfx.DrawTransSprite` | engines/ags/lib/allegro/gfx.cpp:148-152 | On `bmp` with `sprite`, `draw_sprite` with the global blend alpha. |
| `Gfx.DrawLitSprite` | engines/ags/lib/allegro/gfx.cpp:154-158 | On `bmp` with `sprite`, `draw_sprite` with the colour in the alpha argument and the global red, green and blue weights as tint. |
| `Gfx.DrawSpriteHFlip` | engines/ags/lib/allegro/gfx.cpp:160-164 | On `bmp` with `sprite`, `draw_sprite` with only the horizontal flip set. |
| `Gfx.DrawSpriteVFlip` | engines/ags/lib/allegro/gfx.cpp:166-170 | On `bmp` with `sprite`, `draw_sprite` with only the vertical flip set. |
| `Gfx.DrawSpriteVHFlip` | engines/ags/lib/allegro/gfx.cpp:172-176 | On `bmp` with `sprite`, `draw_sprite` with both flips set. |
| `Gfx.RotateSprite` | engines/ags/lib/allegro/gfx.cpp:178-180 | Always fatal. |
| `Gfx.PivotSprite` | engines/ags/lib/allegro/gfx.cpp:182-184 | Always fatal. |
| `Gfx.SpriteWrappersAgree` | engines/ags/lib/allegro/gfx.cpp:104-176 | `draw_sprite(bmp, sprite, …)` is `masked_blit(sprite, bmp, …)` of the whole sprite whenever the formats agree, so the two argument orders name the same target and source. `stretch_sprite` to the sprite's own size is `draw_sprite`. `blit` is `stretch_blit` between equal sizes. The vh-flip variant combines the two single flips. |
| `CInt.ToUnsigned` | engines/ags/lib/allegro/gfx.cpp:227-236 | A store through a `uint8*`, `uint16*` or `uint32*` keeps the value modulo 2^8, 2^16 or 2^32. The result always lies in range and differs from the input by a multiple of the modulus. In-range values are kept, and negative ones wrap. |
| `CInt.WrapInt32` | engines/ags/lib/allegro/gfx.cpp:65-66 | A sum of C `int`s is brought back into the `int` range by two's-complement wrap-around: unchanged when it fits, otherwise congruent modulo 2^32. |
| `CInt.ToInt32` | engines/ags/lib/allegro/gfx.cpp:282-283 | A `uint32` read as `int` is in the `int` range and is negative exactly for the upper half. |
| `CInt.Int32RoundTrip` | engines/ags/lib/allegro/gfx.cpp:234-235 | Storing a C `int` through a `uint32*` and reading it back as `int` returns it unchanged. |
| `CInt.TruncDiv` | engines/ags/engine/ac/screen.cpp:82 | `1000 / GetGameSpeed()` truncates toward zero. The magnitude is the quotient of the magnitudes, and the sign is the product of the signs. |
| `Screen.MyFadeIn` | engines/ags/engine/ac/screen.cpp:49-61 | The palette is set, and `screen_is_faded_out` cleared, if and only if the colour depth is above 1. The driver `FadeIn` (speed, palette, fade colour) is called, after the palette, unless the depth is above 1 and `no_hicolor_fadein` is set. No other driver call is made and nothing else changes. |
| `Screen.EffectiveTransition` | engines/ags/engine/ac/screen.cpp:69-73 | The override when it is ≥ 0, otherwise `fade_effect`. |
| `Screen.ChooseFadeOut` | engines/ags/engine/ac/screen.cpp:65-88 | A plugin result other than 0 pre-empts everything. Otherwise tint > 0 or FADE_INSTANT gives the instant kind, FADE_NORMAL gives a fade and FADE_BOXOUT a box-out. Every other code gives a crossfade capture. Each condition is an if-and-only-if. |
| `Screen.CurrentFadeOutEffect` | engines/ags/engine/ac/screen.cpp:65-89 | Plugin-handled: nothing. Instant: black palette 0..255 only when the screen is not to be kept. Fade: `my_fade_out` at speed 5. Box-out: step `get_fixed_pixel_size(16)`, duration 1000/speed, then `screen_is_faded_out = 1`. Capture: palette saved and a snapshot requested at exactly the viewport size. The override is never cleared. |
| `Screen.OverrideActsAsFadeEffect` | engines/ags/engine/ac/screen.cpp:70-73 | A non-negative override decides exactly as if it were the game's fade effect. |
| `Screen.TintForcesInstant` | engines/ags/engine/ac/screen.cpp:74-76 | With tint > 0 the instant kind is chosen whatever the fade effect and the override are. |
| `Screen.UnlistedCodesCapture` | engines/ags/engine/ac/screen.cpp:84-88 | Dissolve, crossfade and unknown codes all take the capture branch. |
| `Screen.FadeOutKeepsDecision` | engines/ags/engine/ac/screen.cpp:65-89 | After the fade-out the override is unchanged and the decision would be the same. This function itself assigns the faded-out flag only on a box-out. |
| `Screen.BoxOutThenFadeIn` | engines/ags/engine/ac/screen.cpp:49-89 | A box-out sets the faded-out flag. A hi-colour fade-in then clears it. A palette-game fade-in leaves it set and asks the driver to fade in. |
| `Screen.BlitRows` | engines/ags/engine/ac/screen.cpp:99-104 | A row blit clipped to both bitmaps. Destination row i takes source row i - dstY + srcY inside the copied window, and every other row is kept. |
| `Screen.NewBitmap` | engines/ags/engine/ac/screen.cpp:98 | The new buffer is well formed, with the requested width, height and a full clip. It is given the format passed in, which the caller takes from the snapshot. |
| `Screen.Recentre` | engines/ags/engine/ac/screen.cpp:95-107 | The width is kept, the new buffer takes the snapshot's format, and the height becomes vh. A new buffer (sh ≠ vh) has the full clip. If sh < vh, source row r lands at r + (vh-sh)/2. If sh > vh, row r is source row r + (sh-vh)/2. If sh = vh, the snapshot is unchanged. |
| `Screen.CropUndoesPad` | engines/ags/engine/ac/screen.cpp:97-107 | Padding a snapshot to a taller viewport and cropping it back restores its pixels. |
| `Screen.CentringExample` | engines/ags/engine/ac/screen.cpp:97-107 | A 100-row snapshot lands on rows 20..119 of a 140-row viewport. Cropped to 60 rows, it keeps rows 20..79. |
| `Screen.PrepareScreenForTransitionIn` | engines/ags/engine/ac/screen.cpp:91-110 | Fatal ("buffer is null") exactly when there is no snapshot. Otherwise the re-centred, format-converted snapshot stays saved and is uploaded without alpha, with the width, height, centring and (for a new buffer) full clip stated for `Recentre`. |

## Left out

- `ManagedSurface::draw`, `drawLine`, `frameRect`, `fillRect`, `circlefill` and `clear`: these rasterise in code outside this model. Only the arguments passed to them are modelled, so clip-respecting, masking, stretching and blending are not stated. `circlefill`, `clear_to_color` and `clear_bitmap` are only forwarded and are not modelled.
- `set_gfx_mode`, `set_color_conversion`, `get_color_conversion`, `is_screen_bitmap`, `is_video_bitmap`, `is_planar_bitmap`, `is_linear_bitmap`, `acquire_bitmap`, `release_bitmap`, `bmp_select`, `bmp_write_line`, `bmp_unwrite_line` and `bmp_write8`: plumbing with no behaviour to state.
- The Screen script API (`Screen_*`, `Sc_Screen_*`, `RegisterScreenAPI`) and the room/screen coordinate transforms: marshalling and thin wrappers over play-state code that is not part of this model.
- `pl_run_plugin_hooks`, `set_palette`, `set_palette_range`, `get_palette`, `my_fade_out`, `FadeIn`, `BoxOutEffect`, `CopyScreenIntoBitmap`, `ReplaceBitmapWithSupportedFormat` and `CreateDDBFromBitmap`: foreign calls. They appear only as requests, host-supplied values or function parameters. The same goes for `get_fixed_pixel_size` and `GetGameSpeed`, whose results come in through `Host`.
- Common::Rect's 16-bit coordinates and its validity assertion are not modelled. Rectangles use unbounded integers, and common/rect.h is not part of this model.
- Raw pixel memory (pitch, byte order) is not modelled. Pixels are a grid of naturals, each below 256^(bytes per pixel).
- `Gfx.PutPixel`: requires the point to be inside the bitmap. The source writes through `getBasePtr` without a bounds check, so an out-of-range write is undefined behaviour.
- `Gfx.PutPixel8`, `Gfx.PutPixel16`, `Gfx.PutPixel32`: modelled only on bitmaps of their own depth. On other depths the source reinterprets pixel memory, and raw layout is not modelled.
- `Gfx.GetPixel8`, `Gfx.GetPixel16`, `Gfx.GetPixel32`: in-bounds reads are modelled only on bitmaps of their own depth, for the same reason. The -1 sentinel is stated for every depth.
- `Gfx.SetClipRect`: requires a bitmap at least 1×1, because `CLIP` (common/util.h, not part of this model) asserts that its lower bound does not exceed its upper bound. It also requires the sides and corners to fit a C `int`. The overflow of `x2 + 1` / `y2 + 1` at INT_MAX is undefined behaviour in C, and the model takes the two's-complement wrap most platforms perform (`CInt.WrapInt32`).
- `Screen.FadeOutKeepsDecision`: the effect of `my_fade_out` (screen.cpp:80) on `screen_is_faded_out` is not modelled. That routine is outside this model and becomes the request `MyFadeOut(5)`, so the flag clause covers only the assignments made in `current_fade_out_effect` itself.
- `Screen.CurrentFadeOutEffect`: requires a non-zero game speed only when the box-out is chosen, because the source divides by it there. The snapshot's real contents come from the `grab` parameter, and the replaced earlier snapshot is not freed (the source leaks it as well).
- `Screen.Recentre`: `BitmapHelper::CreateBitmap` receives only the snapshot's colour depth (screen.cpp:98 and 103). The model gives the new buffer the snapshot's exact pixel format, so it does not cover a depth-to-format mapping that picks a different layout, nor the pixel conversion `Blit` would then perform.
- `Screen.Recentre`: the contents of the padding rows are not stated. The model fills them with a parameter `blank` standing for whatever `BitmapHelper::CreateBitmap` leaves there. `Bitmap::Blit` is modelled as a full-width row copy clipped to both bitmaps.
- `Screen.PrepareScreenForTransitionIn`: the format conversion is a parameter. Its result is required to be a well-formed bitmap.
- `engines/aesop/*`: detection tables, plugin registration and an engine whose `run()` returns immediately. There is no logic to model.

=== FILE: cint.dfy ===
/** The C integer conversions the engine relies on, written out explicitly
    because Dafny integers are unbounded. */
module CInt {

  const INT32_MIN: int := -0x8000_0000
  const INT32_MAX: int := 0x7FFF_FFFF
  const UINT32_MODULUS: int := 0x1_0000_0000

  /** A value representable as a C `int`. */
  predicate IsInt32(v: int) {
    INT32_MIN <= v <= INT32_MAX
  }

  /** Values held by a 32-bit unsigned integer. */
  type uint32 = x: int | 0 <= x < 0x1_0000_0000

  /** Number of distinct values an unsigned integer of `bytes` bytes holds. */
  function UnsignedRange(bytes: nat): nat
    requires 1 <= bytes <= 4
  {
    if bytes == 1 then 0x100
    else if bytes == 2 then 0x1_0000
    else if bytes == 3 then 0x100_0000
    else 0x1_0000_0000
  }

  /** Conversion of an `int` to an unsigned integer `bytes` wide (the store
      through a `uint8*`, `uint16*` or `uint32*`): reduction modulo 2^(8*bytes). */
  function ToUnsigned(v: int, bytes: nat): (r: nat)
    requires 1 <= bytes <= 4
    ensures r < UnsignedRange(bytes)
    ensures 0 <= v < UnsignedRange(bytes) ==> r == v
    ensures v < 0 && 0 <= v + UnsignedRange(bytes) ==> r == v + UnsignedRange(bytes)
    ensures (v - r) % UnsignedRange(bytes) == 0
  {
    ReductionCongruent(v, bytes);
    if bytes == 1 then v % 0x100
    else if bytes == 2 then v % 0x1_0000
    else if bytes == 3 then v % 0x100_0000
    else v % 0x1_0000_0000
  }

  /** Reducing modulo 2^(8*bytes) removes a whole multiple of 2^(8*bytes). */
  lemma ReductionCongruent(v: int, bytes: nat)
    requires 1 <= bytes <= 4
    ensures (v - v % UnsignedRange(bytes)) % UnsignedRange(bytes) == 0
  {
  }

  /** Conversion of a 32-bit unsigned value to `int`: the two's-complement
      reading, so the upper half of the range becomes negative. */
  function ToInt32(u: uint32): (r: int)
    ensures IsInt32(r)
    ensures r < 0 <==> u >= 0x8000_0000
    ensures (u - r) % UINT32_MODULUS == 0
  {
    if u >= 0x8000_0000 then u - UINT32_MODULUS else u
  }

  /** Storing a C `int` through a `uint32*` and reading it back as `int`
      returns the original value. */
  lemma Int32RoundTrip(v: int)
    requires IsInt32(v)
    ensures ToUnsigned(v, 4) < UINT32_MODULUS
    ensures ToInt32(ToUnsigned(v, 4)) == v
  {
  }

  /** Reading a 32-bit unsigned value as `int` and storing it back through a
      `uint32*` restores the original bits. */
  lemma Uint32RoundTrip(u: uint32)
    ensures ToUnsigned(ToInt32(u), 4) == u
  {
  }

  /** The two's-complement wrap of a C `int` sum that leaves the `int`
      range (undefined in C, wrapping on the platforms the engine targets). */
  function WrapInt32(v: int): (r: int)
    ensures IsInt32(r)
    ensures IsInt32(v) ==> r == v
    ensures (v - r) % UINT32_MODULUS == 0
  {
    ToInt32(ToUnsigned(v, 4))
  }

  function Abs(v: int): nat {
    if v < 0 then -v else v
  }

  /** The quotient of two naturals is a natural. */
  lemma DivOfNaturals(x: nat, y: nat)
    requires y > 0
    ensures x / y >= 0
  {
  }

  /** C's integer division, which truncates toward zero. */
  function TruncDiv(a: int, b: int): (q: int)
    requires b != 0
    ensures Abs(q) == Abs(a) / Abs(b)
    ensures q > 0 ==> (a < 0) == (b < 0)
    ensures q < 0 ==> (a < 0) != (b < 0)
  {
    var x, y := Abs(a), Abs(b);
    DivOfNaturals(x, y);
    var m: int := x / y;
    if (a < 0) == (b < 0) then m else -m
  }
}

=== FILE: fallible.dfy ===
/** Failure-carrying results shared by the graphics and screen models. */
module Fallible {

  /** A value that may be absent, such as a pointer that may be null. */
  datatype Option<+T> = None | Some(value: T)

  /** The result of an operation that can stop the engine: `error(...)`,
      `quit(...)` or a failed `assert` become `Fatal` with the message. */
  datatype Outcome<+T> = Done(value: T) | Fatal(message: string)
}

=== FILE: gfx.dfy ===
/** The Allegro-style bitmap primitives of the AGS compatibility layer:
    clipping, depth-dispatched pixel access, shape-corner normalisation,
    format-derived values, and the argument mapping of the blit and sprite
    wrappers onto the surface's `draw` call. */
module Gfx {
  import opened Fallible
  import opened CInt

  // ---------------------------------------------------------------------
  // Data model
  // ---------------------------------------------------------------------

  /** The part of a surface's pixel format this layer consults: bytes per
      pixel, the bit count the format reports as `bpp()`, and an opaque tag
      standing for its channel shifts and losses. Two formats are equal
      exactly when all three agree. */
  datatype PixelFormat = PixelFormat(bytesPerPixel: nat, bitsPerPixel: int, layout: int)

  /** The format's encoding of an RGB triple (`RGBToColor`), which this
      model keeps abstract; it yields a 32-bit unsigned value. */
  type RgbEncoder = (PixelFormat, int, int, int) -> uint32

  /** Clip bounds as a bitmap stores them: left and top inclusive, right and
      bottom exclusive. */
  datatype Clip = Clip(cl: int, ct: int, cr: int, cb: int)

  /** A bitmap: its size, format, one row of pixel values per line, and its
      clip bounds. */
  datatype Bitmap = Bitmap(w: nat, h: nat, format: PixelFormat, pixels: seq<seq<nat>>, clip: Clip)
  {
    /** Rows match the size, every pixel fits the format's storage width,
        and the clip bounds lie inside the surface. */
    predicate Valid() {
      && 1 <= format.bytesPerPixel <= 4
      && |pixels| == h
      && (forall y :: 0 <= y < h ==>
            && |pixels[y]| == w
            && forall x :: 0 <= x < w ==> pixels[y][x] < UnsignedRange(format.bytesPerPixel))
      && 0 <= clip.cl <= w && 0 <= clip.cr <= w
      && 0 <= clip.ct <= h && 0 <= clip.cb <= h
    }
  }

  /** The clip a freshly created bitmap starts with: the whole surface. */
  function FullClip(w: nat, h: nat): Clip {
    Clip(0, 0, w, h)
  }

  /** A rectangle in the surface library's convention: left and top
      inclusive, right and bottom exclusive. */
  datatype Rect = Rect(left: int, top: int, right: int, bottom: int)
  {
    function Width(): int { right - left }
    function Height(): int { bottom - top }
    predicate Contains(x: int, y: int) {
      left <= x < right && top <= y < bottom
    }
  }

  function Min(a: int, b: int): int { if a <= b then a else b }
  function Max(a: int, b: int): int { if a <= b then b else a }

  /** `v` lies between `a` and `b`, whichever order they come in. */
  predicate Between(v: int, a: int, b: int) {
    Min(a, b) <= v <= Max(a, b)
  }

  // ---------------------------------------------------------------------
  // Format-derived values
  // ---------------------------------------------------------------------

  /** `bitmap_mask_color`: palette index 0 for one-byte formats, otherwise
      the format's encoding of bright pink (255, 0, 255). The macro's type is
      unsigned 32-bit, so the `int` returned is its two's-complement reading. */
  function MaskColor(b: Bitmap, encode: RgbEncoder): (r: int)
    ensures b.format.bytesPerPixel == 1 ==> r == 0
    ensures b.format.bytesPerPixel != 1 ==> ToUnsigned(r, 4) == encode(b.format, 255, 0, 255)
    ensures IsInt32(r)
  {
    if b.format.bytesPerPixel == 1 then 0
    else
      var u := encode(b.format, 255, 0, 255);
      Uint32RoundTrip(u);
      ToInt32(u)
  }

  /** `bitmap_color_depth`: 8 for one-byte formats, otherwise the format's
      own bit count. */
  function ColorDepth(b: Bitmap): (r: int)
    ensures b.format.bytesPerPixel == 1 ==> r == 8
    ensures b.format.bytesPerPixel != 1 ==> r == b.format.bitsPerPixel
  {
    if b.format.bytesPerPixel == 1 then 8 else b.format.bitsPerPixel
  }

  // ---------------------------------------------------------------------
  // Clipping
  // ---------------------------------------------------------------------

  /** `CLIP(v, lo, hi)`: the value brought into [lo, hi]. */
  function Clamp(v: int, lo: int, hi: int): (r: int)
    requires lo <= hi
    ensures lo <= r <= hi
    ensures lo <= v <= hi ==> r == v
    ensures v < lo ==> r == lo
    ensures hi < v ==> r == hi
  {
    if v < lo then lo else if v > hi then hi else v
  }

  /** `set_clip_rect`: the inclusive corners (x1, y1)-(x2, y2) become
      exclusive bounds on the right and bottom, each clamped to the surface.
      The corners are C `int`s, and `x2 + 1` / `y2 + 1` wrap at INT_MAX, so a
      right or bottom corner of INT_MAX gives an empty clip on that axis.
      Only the clip changes. */
  function SetClipRect(b: Bitmap, x1: int, y1: int, x2: int, y2: int): (r: Bitmap)
    requires 1 <= b.w <= INT32_MAX && 1 <= b.h <= INT32_MAX
    requires IsInt32(x1) && IsInt32(y1) && IsInt32(x2) && IsInt32(y2)
    ensures r == b.(clip := r.clip)
    ensures 0 <= r.clip.cl <= b.w - 1 && 0 <= r.clip.ct <= b.h - 1
    ensures 0 <= r.clip.cr <= b.w && 0 <= r.clip.cb <= b.h
    ensures 0 <= x1 < b.w ==> r.clip.cl == x1
    ensures 0 <= y1 < b.h ==> r.clip.ct == y1
    ensures -1 <= x2 < b.w ==> r.clip.cr == x2 + 1
    ensures -1 <= y2 < b.h ==> r.clip.cb == y2 + 1
    ensures x1 < 0 ==> r.clip.cl == 0
    ensures y1 < 0 ==> r.clip.ct == 0
    ensures x1 >= b.w ==> r.clip.cl == b.w - 1
    ensures y1 >= b.h ==> r.clip.ct == b.h - 1
    ensures x2 < -1 ==> r.clip.cr == 0
    ensures y2 < -1 ==> r.clip.cb == 0
    ensures x2 >= b.w && x2 != INT32_MAX ==> r.clip.cr == b.w
    ensures y2 >= b.h && y2 != INT32_MAX ==> r.clip.cb == b.h
    ensures x2 == INT32_MAX ==> r.clip.cr == 0
    ensures y2 == INT32_MAX ==> r.clip.cb == 0
    ensures b.Valid() ==> r.Valid()
  {
    b.(clip := Clip(Clamp(x1, 0, b.w - 1), Clamp(y1, 0, b.h - 1),
                    Clamp(WrapInt32(x2 + 1), 0, b.w), Clamp(WrapInt32(y2 + 1), 0, b.h)))
  }

  /** An `int*` out-parameter: null, or pointing at a current value. */
  datatype OutParam = Null | Ptr(target: int)

  /** Writing through an out-parameter: a null pointer is left alone. */
  function Store(p: OutParam, v: int): OutParam {
    if p.Null? then Null else Ptr(v)
  }

  /** The four out-parameters of `get_clip_rect` after the call. */
  datatype ClipOut = ClipOut(x1: OutParam, y1: OutParam, x2: OutParam, y2: OutParam)

  /** `get_clip_rect`: each non-null out-parameter receives the matching
      corner of the clip, turned back into the inclusive convention; null
      ones are not written. */
  function GetClipRect(b: Bitmap, x1: OutParam, y1: OutParam, x2: OutParam, y2: OutParam): (r: ClipOut)
    ensures r.x1.Null? == x1.Null? && r.y1.Null? == y1.Null?
    ensures r.x2.Null? == x2.Null? && r.y2.Null? == y2.Null?
    ensures r.x1.Ptr? ==> r.x1.target == b.clip.cl
    ensures r.y1.Ptr? ==> r.y1.target == b.clip.ct
    ensures r.x2.Ptr? ==> r.x2.target + 1 == b.clip.cr
    ensures r.y2.Ptr? ==> r.y2.target + 1 == b.clip.cb
  {
    ClipOut(Store(x1, b.clip.cl), Store(y1, b.clip.ct), Store(x2, b.clip.cr - 1), Store(y2, b.clip.cb - 1))
  }

  /** Reading back a clip set from in-range corners returns exactly those
      corners, through every non-null out-parameter. A right or bottom corner
      of -1 (an empty clip at the surface edge) survives the trip too. */
  lemma ClipRoundTrip(b: Bitmap, x1: int, y1: int, x2: int, y2: int, p1: OutParam, p2: OutParam, p3: OutParam, p4: OutParam)
    requires 1 <= b.w <= INT32_MAX && 1 <= b.h <= INT32_MAX
    requires IsInt32(x1) && IsInt32(y1) && IsInt32(x2) && IsInt32(y2)
    requires 0 <= x1 < b.w && 0 <= y1 < b.h
    requires -1 <= x2 < b.w && -1 <= y2 < b.h
    ensures GetClipRect(SetClipRect(b, x1, y1, x2, y2), p1, p2, p3, p4)
            == ClipOut(Store(p1, x1), Store(p2, y1), Store(p3, x2), Store(p4, y2))
  {
  }

  /** Reading back any clip just set yields the corners clamped to the
      surface: left and top into [0, size-1], right and bottom into
      [-1, size-1], except that a right or bottom corner of INT_MAX wraps
      and reads back as -1. */
  lemma ClipRoundTripClamped(b: Bitmap, x1: int, y1: int, x2: int, y2: int)
    requires 1 <= b.w <= INT32_MAX && 1 <= b.h <= INT32_MAX
    requires IsInt32(x1) && IsInt32(y1) && IsInt32(x2) && IsInt32(y2)
    ensures var r := GetClipRect(SetClipRect(b, x1, y1, x2, y2), Ptr(0), Ptr(0), Ptr(0), Ptr(0));
            && r.x1.target == Clamp(x1, 0, b.w - 1) && r.y1.target == Clamp(y1, 0, b.h - 1)
            && r.x2.target == (if x2 == INT32_MAX then -1 else Clamp(x2, -1, b.w - 1))
            && r.y2.target == (if y2 == INT32_MAX then -1 else Clamp(y2, -1, b.h - 1))
  {
  }

  /** The other direction: setting the clip to what `get_clip_rect` reports
      leaves the bitmap unchanged, for every clip `set_clip_rect` can
      produce. */
  lemma ClipSetOfGet(b: Bitmap)
    requires 1 <= b.w <= INT32_MAX && 1 <= b.h <= INT32_MAX
    requires 0 <= b.clip.cl <= b.w - 1 && 0 <= b.clip.ct <= b.h - 1
    requires 0 <= b.clip.cr <= b.w && 0 <= b.clip.cb <= b.h
    ensures var r := GetClipRect(b, Ptr(0), Ptr(0), Ptr(0), Ptr(0));
            SetClipRect(b, r.x1.target, r.y1.target, r.x2.target, r.y2.target) == b
  {
  }

  // ---------------------------------------------------------------------
  // Pixel access
  // ---------------------------------------------------------------------

  predicate InBounds(b: Bitmap, x: int, y: int) {
    0 <= x < b.w && 0 <= y < b.h
  }

  /** The depths `getpixel` and `putpixel` dispatch on. */
  predicate SupportedDepth(bytes: nat) {
    bytes == 1 || bytes == 2 || bytes == 4
  }

  /** The value an in-bounds read of a stored pixel yields as `int`: the
      stored value for one- and two-byte pixels, its two's-complement reading
      for four-byte pixels. */
  function ReadAsInt(stored: nat, bytes: nat): int
    requires SupportedDepth(bytes) && stored < UnsignedRange(bytes)
  {
    if bytes == 4 then ToInt32(stored) else stored
  }

  /** `getpixel`: the -1 sentinel outside the bitmap (pixel data is not
      touched); inside, the pixel read at the bitmap's depth, and a fatal
      "Unsupported bpp" for depths other than 1, 2 and 4. */
  function GetPixel(b: Bitmap, x: int, y: int): (r: Outcome<int>)
    requires b.Valid()
    ensures !InBounds(b, x, y) ==> r == Done(-1)
    ensures InBounds(b, x, y) && !SupportedDepth(b.format.bytesPerPixel) ==> r.Fatal?
    ensures InBounds(b, x, y) && (b.format.bytesPerPixel == 1 || b.format.bytesPerPixel == 2)
            ==> r == Done(b.pixels[y][x]) && 0 <= r.value
    ensures InBounds(b, x, y) && b.format.bytesPerPixel == 4
            ==> r.Done? && IsInt32(r.value) && ToUnsigned(r.value, 4) == b.pixels[y][x]
  {
    if !InBounds(b, x, y) then Done(-1)
    else if SupportedDepth(b.format.bytesPerPixel) then
      var v := b.pixels[y][x];
      if b.format.bytesPerPixel == 4 then Uint32RoundTrip(v); Done(ToInt32(v))
      else Done(v)
    else Fatal("Unsupported bpp")
  }

  /** `putpixel` (and `memory_putpixel`, which forwards to it): at the
      given in-bounds point, stores the colour truncated to the bitmap's
      8, 16 or 32 bits; at any other depth nothing is written. No other pixel
      and nothing else about the bitmap changes. */
  function PutPixel(b: Bitmap, x: int, y: int, color: int): (r: Bitmap)
    requires b.Valid() && InBounds(b, x, y)
    ensures r.Valid()
    ensures r.w == b.w && r.h == b.h && r.format == b.format && r.clip == b.clip
    ensures forall j, i :: 0 <= j < b.h && 0 <= i < b.w && (i != x || j != y) ==>
              r.pixels[j][i] == b.pixels[j][i]
    ensures SupportedDepth(b.format.bytesPerPixel) ==>
              r.pixels[y][x] == ToUnsigned(color, b.format.bytesPerPixel)
    ensures !SupportedDepth(b.format.bytesPerPixel) ==> r == b
  {
    var bytes := b.format.bytesPerPixel;
    if SupportedDepth(bytes) then
      WithPixel(b, x, y, ToUnsigned(color, bytes))
    else b
  }

  /** The bitmap with the pixel at (x, y) replaced by `v`. */
  function WithPixel(b: Bitmap, x: int, y: int, v: nat): Bitmap
    requires b.Valid() && InBounds(b, x, y)
  {
    var row: seq<nat> := b.pixels[y][x := v];
    b.(pixels := b.pixels[y := row])
  }

  /** Writing a colour and reading the same point back yields the colour
      truncated to the pixel width, read as `int`; for a C `int` colour on a
      32-bit bitmap that is the colour itself, and for a colour that fits
      8 or 16 bits on a bitmap of that depth, likewise. */
  lemma PutThenGetPixel(b: Bitmap, x: int, y: int, color: int)
    requires b.Valid() && InBounds(b, x, y) && SupportedDepth(b.format.bytesPerPixel)
    ensures var bytes := b.format.bytesPerPixel;
            GetPixel(PutPixel(b, x, y, color), x, y) == Done(ReadAsInt(ToUnsigned(color, bytes), bytes))
    ensures b.format.bytesPerPixel == 4 && IsInt32(color)
            ==> GetPixel(PutPixel(b, x, y, color), x, y) == Done(color)
    ensures b.format.bytesPerPixel != 4 && 0 <= color < UnsignedRange(b.format.bytesPerPixel)
            ==> GetPixel(PutPixel(b, x, y, color), x, y) == Done(color)
  {
  }

  /** Writing a pixel leaves every other point reading as before. */
  lemma PutPixelIsLocal(b: Bitmap, x: int, y: int, color: int, x': int, y': int)
    requires b.Valid() && InBounds(b, x, y)
    requires x' != x || y' != y
    ensures GetPixel(PutPixel(b, x, y, color), x', y') == GetPixel(b, x', y')
  {
  }

  /** On a 32-bit bitmap the sentinel is ambiguous: an in-bounds pixel whose
      value is all ones reads as -1, the same as a point outside. */
  lemma SentinelAmbiguousAt32Bits(b: Bitmap, x: int, y: int)
    requires b.Valid() && InBounds(b, x, y) && b.format.bytesPerPixel == 4
    requires b.pixels[y][x] == 0xFFFF_FFFF
    ensures GetPixel(b, x, y) == GetPixel(b, -1, -1) == Done(-1)
  {
  }

  /** On one- and two-byte bitmaps the sentinel is unambiguous: -1 is read
      exactly at points outside the bitmap. */
  lemma SentinelExactBelow32Bits(b: Bitmap, x: int, y: int)
    requires b.Valid() && (b.format.bytesPerPixel == 1 || b.format.bytesPerPixel == 2)
    ensures GetPixel(b, x, y) == Done(-1) <==> !InBounds(b, x, y)
  {
  }

  /** Writing the mask colour and reading it back yields the mask colour:
      always on 8- and 32-bit bitmaps, and on 16-bit ones whenever the
      format's pink encoding fits 16 bits. */
  lemma MaskColorReadsBack(b: Bitmap, x: int, y: int, encode: RgbEncoder)
    requires b.Valid() && InBounds(b, x, y) && SupportedDepth(b.format.bytesPerPixel)
    requires b.format.bytesPerPixel == 2 ==> encode(b.format, 255, 0, 255) < 0x1_0000
    ensures GetPixel(PutPixel(b, x, y, MaskColor(b, encode)), x, y) == Done(MaskColor(b, encode))
  {
  }

  /** `_getpixel`, the 8-bit accessor: -1 outside the bitmap; inside, the
      same value as `getpixel` on an 8-bit bitmap. */
  function GetPixel8(b: Bitmap, x: int, y: int): (r: int)
    requires b.Valid() && (InBounds(b, x, y) ==> b.format.bytesPerPixel == 1)
    ensures !InBounds(b, x, y) ==> r == -1
    ensures GetPixel(b, x, y) == Done(r)
  {
    if !InBounds(b, x, y) then -1 else b.pixels[y][x]
  }

  /** `_getpixel16`: -1 outside; inside, `getpixel` on a 16-bit bitmap. */
  function GetPixel16(b: Bitmap, x: int, y: int): (r: int)
    requires b.Valid() && (InBounds(b, x, y) ==> b.format.bytesPerPixel == 2)
    ensures !InBounds(b, x, y) ==> r == -1
    ensures GetPixel(b, x, y) == Done(r)
  {
    if !InBounds(b, x, y) then -1 else b.pixels[y][x]
  }

  /** `_getpixel32`: -1 outside; inside, `getpixel` on a 32-bit bitmap. */
  function GetPixel32(b: Bitmap, x: int, y: int): (r: int)
    requires b.Valid() && (InBounds(b, x, y) ==> b.format.bytesPerPixel == 4)
    ensures !InBounds(b, x, y) ==> r == -1
    ensures GetPixel(b, x, y) == Done(r)
  {
    if !InBounds(b, x, y) then -1 else ToInt32(b.pixels[y][x])
  }

  /** `_getpixel15`: unsupported, always fatal. */
  function GetPixel15(b: Bitmap, x: int, y: int): (r: Outcome<int>)
    ensures r == Fatal("Unsupported bpp")
  {
    Fatal("Unsupported bpp")
  }

  /** `_getpixel24`: unsupported, always fatal. */
  function GetPixel24(b: Bitmap, x: int, y: int): (r: Outcome<int>)
    ensures r == Fatal("Unsupported bpp")
  {
    Fatal("Unsupported bpp")
  }

  /** `_putpixel`, the 8-bit writer: on an 8-bit bitmap, the same as
      `putpixel`. */
  function PutPixel8(b: Bitmap, x: int, y: int, color: int): (r: Bitmap)
    requires b.Valid() && InBounds(b, x, y) && b.format.bytesPerPixel == 1
    ensures r == PutPixel(b, x, y, color)
  {
    WithPixel(b, x, y, ToUnsigned(color, 1))
  }

  /** `_putpixel16`: on a 16-bit bitmap, the same as `putpixel`. */
  function PutPixel16(b: Bitmap, x: int, y: int, color: int): (r: Bitmap)
    requires b.Valid() && InBounds(b, x, y) && b.format.bytesPerPixel == 2
    ensures r == PutPixel(b, x, y, color)
  {
    WithPixel(b, x, y, ToUnsigned(color, 2))
  }

  /** `_putpixel32`: on a 32-bit bitmap, the same as `putpixel`. */
  function PutPixel32(b: Bitmap, x: int, y: int, color: int): (r: Bitmap)
    requires b.Valid() && InBounds(b, x, y) && b.format.bytesPerPixel == 4
    ensures r == PutPixel(b, x, y, color)
  {
    WithPixel(b, x, y, ToUnsigned(color, 4))
  }

  /** `_putpixel15`: unsupported, always fatal. */
  function PutPixel15(b: Bitmap, x: int, y: int, color: int): (r: Outcome<Bitmap>)
    ensures r == Fatal("Unsupported bpp")
  {
    Fatal("Unsupported bpp")
  }

  /** `_putpixel24`: unsupported, always fatal. */
  function PutPixel24(b: Bitmap, x: int, y: int, color: int): (r: Outcome<Bitmap>)
    ensures r == Fatal("Unsupported bpp")
  {
    Fatal("Unsupported bpp")
  }

  // ---------------------------------------------------------------------
  // Shapes: the calls made on the underlying surface
  // ---------------------------------------------------------------------

  /** A drawing request handed to the surface library, whose rasterisation
      is outside this model. */
  datatype ShapeCall =
    | DrawLine(x1: int, y1: int, x2: int, y2: int, color: int)
    | FrameRect(rect: Rect, color: int)
    | FillRect(rect: Rect, color: int)

  /** Corners in either order become the exclusive rectangle that covers
      exactly the points between them, corners included. */
  function OrderedRect(x1: int, y1: int, x2: int, y2: int): (r: Rect)
    ensures r.left == Min(x1, x2) && r.top == Min(y1, y2)
    ensures r.right == Max(x1, x2) + 1 && r.bottom == Max(y1, y2) + 1
    ensures r.Width() >= 1 && r.Height() >= 1
    ensures forall x, y :: r.Contains(x, y) <==> Between(x, x1, x2) && Between(y, y1, y2)
  {
    var (left, right) := if x1 > x2 then (x2, x1) else (x1, x2);
    var (top, bottom) := if y1 > y2 then (y2, y1) else (y1, y2);
    Rect(left, top, right + 1, bottom + 1)
  }

  /** `rect`: an outline over the rectangle spanned by the two corners,
      covering exactly the points between them. */
  function DrawRect(x1: int, y1: int, x2: int, y2: int, color: int): (r: ShapeCall)
    ensures r.FrameRect? && r.color == color
    ensures forall x, y :: r.rect.Contains(x, y) <==> Between(x, x1, x2) && Between(y, y1, y2)
  {
    FrameRect(OrderedRect(x1, y1, x2, y2), color)
  }

  /** `rectfill`: a fill of the rectangle spanned by the two corners,
      covering exactly the points between them. */
  function DrawRectFill(x1: int, y1: int, x2: int, y2: int, color: int): (r: ShapeCall)
    ensures r.FillRect? && r.color == color
    ensures forall x, y :: r.rect.Contains(x, y) <==> Between(x, x1, x2) && Between(y, y1, y2)
  {
    FillRect(OrderedRect(x1, y1, x2, y2), color)
  }

  /** The order of the corners does not matter to `rect` or `rectfill`:
      swapping both corners, or only their x or y coordinates, yields the
      same request; and outline and fill cover the same rectangle. */
  lemma RectCornerOrderIrrelevant(x1: int, y1: int, x2: int, y2: int, color: int)
    ensures DrawRect(x1, y1, x2, y2, color) == DrawRect(x2, y2, x1, y1, color)
    ensures DrawRect(x1, y1, x2, y2, color) == DrawRect(x2, y1, x1, y2, color)
    ensures DrawRectFill(x1, y1, x2, y2, color) == DrawRectFill(x2, y2, x1, y1, color)
    ensures DrawRectFill(x1, y1, x2, y2, color) == DrawRectFill(x1, y2, x2, y1, color)
    ensures DrawRect(x1, y1, x2, y2, color).rect == DrawRectFill(x1, y1, x2, y2, color).rect
  {
  }

  /** `line`: forwarded unchanged. */
  function Line(x1: int, y1: int, x2: int, y2: int, color: int): (r: ShapeCall)
    ensures r.DrawLine? && r.color == color
    ensures (r.x1, r.y1, r.x2, r.y2) == (x1, y1, x2, y2)
  {
    DrawLine(x1, y1, x2, y2, color)
  }

  /** `triangle`: three line segments forming a closed outline through the
      three vertices in order, each starting where the previous one ends. */
  function Triangle(x1: int, y1: int, x2: int, y2: int, x3: int, y3: int, color: int): (r: seq<ShapeCall>)
    ensures |r| == 3
    ensures forall i :: 0 <= i < 3 ==> r[i].DrawLine? && r[i].color == color
    ensures forall i :: 0 <= i < 3 ==> (r[i].x2, r[i].y2) == (r[(i + 1) % 3].x1, r[(i + 1) % 3].y1)
    ensures (r[0].x1, r[0].y1) == (x1, y1) && (r[1].x1, r[1].y1) == (x2, y2) && (r[2].x1, r[2].y1) == (x3, y3)
  {
    [DrawLine(x1, y1, x2, y2, color), DrawLine(x2, y2, x3, y3, color), DrawLine(x3, y3, x1, y1, color)]
  }

  // ---------------------------------------------------------------------
  // Blits and sprites: the arguments of the surface's draw call
  // ---------------------------------------------------------------------

  /** The per-channel tint of the lit-sprite form of the draw call. */
  datatype Tint = Tint(red: int, green: int, blue: int)

  /** One call of the surface's `draw`: the bitmap whose `draw` is called
      (drawn onto), the bitmap passed to it (drawn), source rectangle,
      destination rectangle, the two flip flags, whether mask-coloured pixels
      are skipped, the alpha argument (-1 for opaque), and the optional tint. */
  datatype DrawCall = DrawCall(target: Bitmap, source: Bitmap, src: Rect, dst: Rect,
                               hFlip: bool, vFlip: bool, masked: bool, alpha: int, tint: Option<Tint>)

  /** The alpha argument the opaque blits pass. */
  const OPAQUE: int := -1

  /** The engine globals the translucent and lit sprite forms read
      (`trans_blend_alpha`, `trans_blend_red`, `_green`, `_blue`). */
  datatype BlendGlobals = BlendGlobals(alpha: int, red: int, green: int, blue: int)

  /** The rectangle of the given size with its top-left corner at (x, y). */
  function RectAt(x: int, y: int, width: int, height: int): (r: Rect)
    ensures r.left == x && r.top == y && r.Width() == width && r.Height() == height
  {
    Rect(x, y, x + width, y + height)
  }

  /** A call that copies `src` onto `dst` with no flip, no tint and opaque
      alpha. */
  predicate PlainCopy(d: DrawCall) {
    !d.hFlip && !d.vFlip && d.alpha == OPAQUE && d.tint.None?
  }

  /** `blit`: an unmasked, unflipped, opaque copy between a source and a
      destination rectangle of the same width and height. */
  function Blit(src: Bitmap, dest: Bitmap, srcX: int, srcY: int, dstX: int, dstY: int, width: int, height: int): (d: DrawCall)
    ensures d.target == dest && d.source == src
    ensures d.src.left == srcX && d.src.top == srcY && d.dst.left == dstX && d.dst.top == dstY
    ensures d.src.Width() == d.dst.Width() == width && d.src.Height() == d.dst.Height() == height
    ensures PlainCopy(d) && !d.masked
  {
    DrawCall(dest, src, RectAt(srcX, srcY, width, height), RectAt(dstX, dstY, width, height), false, false, false, OPAQUE, None)
  }

  /** `stretch_blit`: an unmasked, unflipped, opaque copy from one
      rectangle to another of possibly different size. */
  function StretchBlit(src: Bitmap, dest: Bitmap, sx: int, sy: int, sw: int, sh: int, dx: int, dy: int, dw: int, dh: int): (d: DrawCall)
    ensures d.target == dest && d.source == src
    ensures d.src == RectAt(sx, sy, sw, sh) && d.dst == RectAt(dx, dy, dw, dh)
    ensures PlainCopy(d) && !d.masked
  {
    DrawCall(dest, src, RectAt(sx, sy, sw, sh), RectAt(dx, dy, dw, dh), false, false, false, OPAQUE, None)
  }

  /** `masked_blit`: fatal unless source and destination share a pixel
      format; otherwise the `blit` request with masking switched on. */
  function MaskedBlit(src: Bitmap, dest: Bitmap, srcX: int, srcY: int, dstX: int, dstY: int, width: int, height: int): (r: Outcome<DrawCall>)
    ensures r.Done? <==> src.format == dest.format
    ensures r.Done? ==> r.value.target == dest && r.value.source == src
    ensures r.Done? ==> r.value == Blit(src, dest, srcX, srcY, dstX, dstY, width, height).(masked := true)
  {
    if src.format != dest.format then Fatal("assertion failed: src->format == dest->format")
    else Done(DrawCall(dest, src, RectAt(srcX, srcY, width, height), RectAt(dstX, dstY, width, height), false, false, true, OPAQUE, None))
  }

  /** `masked_stretch_blit`: the `stretch_blit` request with masking on. It
      does not check the formats. */
  function MaskedStretchBlit(src: Bitmap, dest: Bitmap, sx: int, sy: int, sw: int, sh: int, dx: int, dy: int, dw: int, dh: int): (d: DrawCall)
    ensures d.target == dest && d.source == src
    ensures d == StretchBlit(src, dest, sx, sy, sw, sh, dx, dy, dw, dh).(masked := true)
  {
    DrawCall(dest, src, RectAt(sx, sy, sw, sh), RectAt(dx, dy, dw, dh), false, false, true, OPAQUE, None)
  }

  /** The whole sprite as a source rectangle. */
  function SpriteRect(sprite: Bitmap): (r: Rect)
    ensures r.left == 0 && r.top == 0 && r.Width() == sprite.w && r.Height() == sprite.h
  {
    Rect(0, 0, sprite.w, sprite.h)
  }

  /** The sprite's own size, placed at (x, y). */
  function PlacedSprite(sprite: Bitmap, x: int, y: int): Rect {
    RectAt(x, y, sprite.w, sprite.h)
  }

  /** `draw_sprite`: the whole sprite, masked, unflipped and opaque, at its
      own size with its top-left corner at (x, y). */
  function DrawSprite(bmp: Bitmap, sprite: Bitmap, x: int, y: int): (d: DrawCall)
    ensures d.target == bmp && d.source == sprite
    ensures d.src == SpriteRect(sprite) && d.dst == PlacedSprite(sprite, x, y)
    ensures d.masked && PlainCopy(d)
  {
    DrawCall(bmp, sprite, Rect(0, 0, sprite.w, sprite.h), Rect(x, y, x + sprite.w, y + sprite.h), false, false, true, OPAQUE, None)
  }

  /** `stretch_sprite`: the whole sprite, masked and opaque, stretched to
      the w by h rectangle at (x, y). */
  function StretchSprite(bmp: Bitmap, sprite: Bitmap, x: int, y: int, w: int, h: int): (d: DrawCall)
    ensures d.target == bmp && d.source == sprite
    ensures d.src == SpriteRect(sprite) && d.dst == RectAt(x, y, w, h)
    ensures d.masked && PlainCopy(d)
  {
    DrawCall(bmp, sprite, Rect(0, 0, sprite.w, sprite.h), Rect(x, y, x + w, y + h), false, false, true, OPAQUE, None)
  }

  /** `draw_trans_sprite`: `draw_sprite` with the global blend alpha. */
  function DrawTransSprite(bmp: Bitmap, sprite: Bitmap, x: int, y: int, g: BlendGlobals): (d: DrawCall)
    ensures d.target == bmp && d.source == sprite
    ensures d == DrawSprite(bmp, sprite, x, y).(alpha := g.alpha)
  {
    DrawCall(bmp, sprite, Rect(0, 0, sprite.w, sprite.h), Rect(x, y, x + sprite.w, y + sprite.h), false, false, true, g.alpha, None)
  }

  /** `draw_lit_sprite`: `draw_sprite` with the colour in the alpha
      position and the global per-channel blend weights as tint. */
  function DrawLitSprite(bmp: Bitmap, sprite: Bitmap, x: int, y: int, color: int, g: BlendGlobals): (d: DrawCall)
    ensures d.target == bmp && d.source == sprite
    ensures d == DrawSprite(bmp, sprite, x, y).(alpha := color, tint := Some(Tint(g.red, g.green, g.blue)))
  {
    DrawCall(bmp, sprite, Rect(0, 0, sprite.w, sprite.h), Rect(x, y, x + sprite.w, y + sprite.h), false, false, true,
             color, Some(Tint(g.red, g.green, g.blue)))
  }

  /** `draw_sprite_h_flip`: `draw_sprite` mirrored horizontally only. */
  function DrawSpriteHFlip(bmp: Bitmap, sprite: Bitmap, x: int, y: int): (d: DrawCall)
    ensures d.target == bmp && d.source == sprite
    ensures d == DrawSprite(bmp, sprite, x, y).(hFlip := true)
  {
    DrawCall(bmp, sprite, Rect(0, 0, sprite.w, sprite.h), Rect(x, y, x + sprite.w, y + sprite.h), true, false, true, OPAQUE, None)
  }

  /** `draw_sprite_v_flip`: `draw_sprite` mirrored vertically only. */
  function DrawSpriteVFlip(bmp: Bitmap, sprite: Bitmap, x: int, y: int): (d: DrawCall)
    ensures d.target == bmp && d.source == sprite
    ensures d == DrawSprite(bmp, sprite, x, y).(vFlip := true)
  {
    DrawCall(bmp, sprite, Rect(0, 0, sprite.w, sprite.h), Rect(x, y, x + sprite.w, y + sprite.h), false, true, true, OPAQUE, None)
  }

  /** `draw_sprite_vh_flip`: `draw_sprite` mirrored both ways. */
  function DrawSpriteVHFlip(bmp: Bitmap, sprite: Bitmap, x: int, y: int): (d: DrawCall)
    ensures d.target == bmp && d.source == sprite
    ensures d == DrawSprite(bmp, sprite, x, y).(hFlip := true, vFlip := true)
  {
    DrawCall(bmp, sprite, Rect(0, 0, sprite.w, sprite.h), Rect(x, y, x + sprite.w, y + sprite.h), true, true, true, OPAQUE, None)
  }

  /** `rotate_sprite`: not implemented, always fatal. */
  function RotateSprite(bmp: Bitmap, sprite: Bitmap, x: int, y: int, angle: int): (r: Outcome<DrawCall>)
    ensures r.Fatal?
  {
    Fatal("TODO: rotate_sprite")
  }

  /** `pivot_sprite`: not implemented, always fatal. */
  function PivotSprite(bmp: Bitmap, sprite: Bitmap, x: int, y: int, cx: int, cy: int, angle: int): (r: Outcome<DrawCall>)
    ensures r.Fatal?
  {
    Fatal("TODO: pivot_sprite")
  }

  /** How the wrappers relate: drawing a sprite is a masked blit of the
      whole sprite to the same place (when the formats agree, the only case
      in which `masked_blit` proceeds); stretching a sprite to its own size
      is drawing it; a blit is a stretch blit between equal sizes; and the
      flip variants combine. */
  lemma SpriteWrappersAgree(bmp: Bitmap, sprite: Bitmap, x: int, y: int)
    ensures sprite.format == bmp.format
            ==> MaskedBlit(sprite, bmp, 0, 0, x, y, sprite.w, sprite.h) == Done(DrawSprite(bmp, sprite, x, y))
    ensures StretchSprite(bmp, sprite, x, y, sprite.w, sprite.h) == DrawSprite(bmp, sprite, x, y)
    ensures StretchBlit(sprite, bmp, 0, 0, sprite.w, sprite.h, x, y, sprite.w, sprite.h)
            == Blit(sprite, bmp, 0, 0, x, y, sprite.w, sprite.h)
    ensures DrawSpriteVHFlip(bmp, sprite, x, y)
            == DrawSpriteHFlip(bmp, sprite, x, y).(vFlip := DrawSpriteVFlip(bmp, sprite, x, y).vFlip)
  {
  }
}

=== FILE: screen.dfy ===
/** The screen-transition logic of the AGS engine: fading the screen back
    in, choosing and starting the fade-out effect of a room change, and
    re-centring the saved crossfade snapshot to the current viewport before
    it is handed to the graphics driver. Driver, palette and plugin calls are
    foreign: they appear as `DriverCall` values, as host-supplied results, or
    as function parameters. */
module Screen {
  import opened Fallible
  import opened CInt
  import Gfx

  // ---------------------------------------------------------------------
  // Data model
  // ---------------------------------------------------------------------

  /** Screen transition codes of the game data. */
  const FADE_NORMAL: int := 0
  const FADE_INSTANT: int := 1
  const FADE_DISSOLVE: int := 2
  const FADE_BOXOUT: int := 3
  const FADE_CROSSFADE: int := 4

  /** The speed the normal fade-out runs at. */
  const FADE_OUT_SPEED: int := 5

  datatype Rgb = Rgb(r: int, g: int, b: int)

  type Palette = seq<Rgb>

  /** `black_palette`: 256 black entries. */
  function BlackPalette(): (p: Palette)
    ensures |p| == 256
    ensures forall i :: 0 <= i < |p| ==> p[i] == Rgb(0, 0, 0)
  {
    seq(256, _ => Rgb(0, 0, 0))
  }

  datatype Size = Size(width: nat, height: nat)

  /** The play-state fields the transition code reads or writes. The main
      viewport is given by its size, which is all that is consulted. */
  datatype PlayState = PlayState(
    fadeEffect: int,
    nextScreenTransition: int,
    screenTint: int,
    keepScreenDuringInstantTransition: bool,
    screenIsFadedOut: int,
    noHicolorFadein: bool,
    fadeToRed: int,
    fadeToGreen: int,
    fadeToBlue: int,
    mainViewport: Size)

  /** The requests this code makes of the graphics driver, the palette
      routines, the engine's own `my_fade_out` and the screen-copy helper,
      in the order made. */
  datatype DriverCall =
    | SetPalette(palette: Palette)
    | FadeIn(speed: int, palette: Palette, red: int, green: int, blue: int)
    | SetPaletteRange(palette: Palette, from: int, to: int, vsync: int)
    | MyFadeOut(speed: int)
    | BoxOutEffect(blackingOut: bool, step: int, delayMs: int)
    | GetPalette
    | CopyScreenIntoBitmap(width: int, height: int)
    | CreateDdbFromBitmap(bitmap: Gfx.Bitmap, hasAlpha: bool)

  /** The state the transition code owns: the play state, the saved
      viewport snapshot (`saved_viewport_bitmap`, None for null) and the
      palette saved at the start of a crossfade (`old_palette`). */
  datatype Controller = Controller(play: PlayState, saved: Option<Gfx.Bitmap>, oldPalette: Palette)

  /** What the host reports during a fade-out: the result of the
      transition-out plugin hook, the game speed, the box-out step in pixels
      (`get_fixed_pixel_size(16)`) and the palette currently in use. */
  datatype Host = Host(pluginResult: int, gameSpeed: int, boxOutStep: int, palette: Palette)

  /** The play state after a call and the requests it made. */
  datatype Step = Step(play: PlayState, calls: seq<DriverCall>)

  /** The controller after a fade-out and the requests it made. */
  datatype FadeOutStep = FadeOutStep(ctl: Controller, calls: seq<DriverCall>)

  // ---------------------------------------------------------------------
  // Fading in
  // ---------------------------------------------------------------------

  /** The driver fade-in `my_fade_in` requests. */
  function DriverFadeIn(play: PlayState, p: Palette, speed: int): DriverCall {
    FadeIn(speed, p, play.fadeToRed, play.fadeToGreen, play.fadeToBlue)
  }

  /** `my_fade_in`: in hi-colour games (colour depth above 1) the palette is
      set and the faded-out flag cleared, and the driver fade is skipped when
      `no_hicolor_fadein` is set; in every other case the driver fades in
      towards the play state's fade colour. Nothing else changes. */
  function MyFadeIn(play: PlayState, colorDepth: int, p: Palette, speed: int): (r: Step)
    ensures r.play == play.(screenIsFadedOut := r.play.screenIsFadedOut)
    ensures colorDepth > 1 ==> r.play.screenIsFadedOut == 0
    ensures colorDepth <= 1 ==> r.play == play
    ensures r.calls == (if colorDepth > 1 then [SetPalette(p)] else [])
                       + (if colorDepth > 1 && play.noHicolorFadein then [] else [DriverFadeIn(play, p, speed)])
  {
    if colorDepth > 1 then
      var play' := play.(screenIsFadedOut := 0);
      if play.noHicolorFadein then Step(play', [SetPalette(p)])
      else Step(play', [SetPalette(p), DriverFadeIn(play, p, speed)])
    else Step(play, [DriverFadeIn(play, p, speed)])
  }

  // ---------------------------------------------------------------------
  // Fading out
  // ---------------------------------------------------------------------

  /** The kinds of fade-out `current_fade_out_effect` can perform. */
  datatype FadeOutKind = PluginHandled | Instant | Fade | BoxOut | Crossfade

  /** The transition in force: the one-off override when it is set
      (non-negative), otherwise the game's fade effect. */
  function EffectiveTransition(play: PlayState): (t: int)
    ensures play.nextScreenTransition >= 0 ==> t == play.nextScreenTransition
    ensures play.nextScreenTransition < 0 ==> t == play.fadeEffect
  {
    if play.nextScreenTransition >= 0 then play.nextScreenTransition else play.fadeEffect
  }

  /** The decision `current_fade_out_effect` makes: a plugin that handles the
      transition pre-empts everything; otherwise an active screen tint or the
      instant code gives the instant fade, the normal code a fade, the box-out
      code a box-out, and every other code (dissolve, crossfade, unknown) a
      crossfade capture. Exactly one kind is chosen. */
  function ChooseFadeOut(play: PlayState, pluginResult: int): (k: FadeOutKind)
    ensures k == PluginHandled <==> pluginResult != 0
    ensures k == Instant <==>
              pluginResult == 0 && (EffectiveTransition(play) == FADE_INSTANT || play.screenTint > 0)
    ensures k == Fade <==>
              pluginResult == 0 && play.screenTint <= 0 && EffectiveTransition(play) == FADE_NORMAL
    ensures k == BoxOut <==>
              pluginResult == 0 && play.screenTint <= 0 && EffectiveTransition(play) == FADE_BOXOUT
    ensures k == Crossfade <==>
              && pluginResult == 0 && play.screenTint <= 0
              && EffectiveTransition(play) != FADE_INSTANT
              && EffectiveTransition(play) != FADE_NORMAL
              && EffectiveTransition(play) != FADE_BOXOUT
  {
    if pluginResult != 0 then PluginHandled
    else
      var t := EffectiveTransition(play);
      if t == FADE_INSTANT || play.screenTint > 0 then Instant
      else if t == FADE_NORMAL then Fade
      else if t == FADE_BOXOUT then BoxOut
      else Crossfade
  }

  /** `current_fade_out_effect`, given the host's answers and the screen
      copy `grab(w, h)` that `CopyScreenIntoBitmap` would return. Per kind:
      a plugin-handled transition does nothing more; the instant fade blacks
      palette entries 0..255 unless the screen is to be kept; the fade calls
      `my_fade_out` at speed 5; the box-out runs with the host's step and 1000 / game speed
      milliseconds and marks the screen faded out; the crossfade saves the
      palette and a snapshot requested at exactly the main viewport's size.
      The one-off override is never cleared here. */
  function CurrentFadeOutEffect(c: Controller, host: Host, grab: (nat, nat) -> Gfx.Bitmap): (r: FadeOutStep)
    requires ChooseFadeOut(c.play, host.pluginResult) == BoxOut ==> host.gameSpeed != 0
    ensures r.ctl.play == c.play.(screenIsFadedOut := r.ctl.play.screenIsFadedOut)
    ensures var k := ChooseFadeOut(c.play, host.pluginResult);
            && (k == PluginHandled ==> r == FadeOutStep(c, []))
            && (k == Instant && c.play.keepScreenDuringInstantTransition ==> r == FadeOutStep(c, []))
            && (k == Instant && !c.play.keepScreenDuringInstantTransition ==>
                  r == FadeOutStep(c, [SetPaletteRange(BlackPalette(), 0, 255, 0)]))
            && (k == Fade ==> r == FadeOutStep(c, [MyFadeOut(FADE_OUT_SPEED)]))
            && (k == BoxOut ==>
                  && r.ctl == c.(play := c.play.(screenIsFadedOut := 1))
                  && r.calls == [BoxOutEffect(true, host.boxOutStep, TruncDiv(1000, host.gameSpeed))])
            && (k == Crossfade ==>
                  var vp := c.play.mainViewport;
                  && r.ctl == c.(saved := Some(grab(vp.width, vp.height)), oldPalette := host.palette)
                  && r.calls == [GetPalette, CopyScreenIntoBitmap(vp.width, vp.height)])
  {
    match ChooseFadeOut(c.play, host.pluginResult)
    case PluginHandled => FadeOutStep(c, [])
    case Instant =>
      if c.play.keepScreenDuringInstantTransition then FadeOutStep(c, [])
      else FadeOutStep(c, [SetPaletteRange(BlackPalette(), 0, 255, 0)])
    case Fade => FadeOutStep(c, [MyFadeOut(FADE_OUT_SPEED)])
    case BoxOut =>
      FadeOutStep(c.(play := c.play.(screenIsFadedOut := 1)),
                  [BoxOutEffect(true, host.boxOutStep, TruncDiv(1000, host.gameSpeed))])
    case Crossfade =>
      var vp := c.play.mainViewport;
      FadeOutStep(c.(saved := Some(grab(vp.width, vp.height)), oldPalette := host.palette),
                  [GetPalette, CopyScreenIntoBitmap(vp.width, vp.height)])
  }

  /** A set override behaves exactly as if it were the game's fade effect. */
  lemma OverrideActsAsFadeEffect(play: PlayState, pluginResult: int)
    requires play.nextScreenTransition >= 0
    ensures ChooseFadeOut(play, pluginResult)
            == ChooseFadeOut(play.(fadeEffect := play.nextScreenTransition, nextScreenTransition := -1), pluginResult)
  {
  }

  /** An active tint forces the instant fade whatever transition is
      selected, by the game or by the override. */
  lemma TintForcesInstant(play: PlayState, code: int, override: int)
    requires play.screenTint > 0
    ensures ChooseFadeOut(play.(fadeEffect := code, nextScreenTransition := override), 0) == Instant
  {
  }

  /** The dissolve and crossfade codes, and any code the game data does not
      define, all fall to the crossfade capture when nothing pre-empts them. */
  lemma UnlistedCodesCapture(play: PlayState)
    requires play.screenTint <= 0
    requires EffectiveTransition(play) !in {FADE_NORMAL, FADE_INSTANT, FADE_BOXOUT}
    ensures ChooseFadeOut(play, 0) == Crossfade
    ensures ChooseFadeOut(play.(nextScreenTransition := FADE_DISSOLVE), 0) == Crossfade
    ensures ChooseFadeOut(play.(nextScreenTransition := FADE_CROSSFADE), 0) == Crossfade
  {
  }

  /** The fade-out does not consume the override and does not alter the
      fields the decision reads, so the same decision is made if it runs
      again; this function itself assigns the faded-out flag only on a
      box-out. */
  lemma FadeOutKeepsDecision(c: Controller, host: Host, grab: (nat, nat) -> Gfx.Bitmap)
    requires ChooseFadeOut(c.play, host.pluginResult) == BoxOut ==> host.gameSpeed != 0
    ensures var r := CurrentFadeOutEffect(c, host, grab);
            && r.ctl.play.nextScreenTransition == c.play.nextScreenTransition
            && ChooseFadeOut(r.ctl.play, host.pluginResult) == ChooseFadeOut(c.play, host.pluginResult)
            && (r.ctl.play.screenIsFadedOut != c.play.screenIsFadedOut ==>
                  ChooseFadeOut(c.play, host.pluginResult) == BoxOut)
  {
  }

  /** After a box-out leaves the screen marked faded out, fading back in
      clears the mark in a hi-colour game, and in a palette game leaves it
      set and asks the driver to fade in. */
  lemma BoxOutThenFadeIn(c: Controller, host: Host, grab: (nat, nat) -> Gfx.Bitmap, colorDepth: int, p: Palette, speed: int)
    requires ChooseFadeOut(c.play, host.pluginResult) == BoxOut && host.gameSpeed != 0
    ensures var out := CurrentFadeOutEffect(c, host, grab);
            && out.ctl.play.screenIsFadedOut == 1
            && (colorDepth > 1 ==> MyFadeIn(out.ctl.play, colorDepth, p, speed).play.screenIsFadedOut == 0)
            && (colorDepth <= 1 ==>
                  var back := MyFadeIn(out.ctl.play, colorDepth, p, speed);
                  back.play.screenIsFadedOut == 1 && back.calls == [DriverFadeIn(out.ctl.play, p, speed)])
  {
  }

  // ---------------------------------------------------------------------
  // Re-centring the snapshot
  // ---------------------------------------------------------------------

  /** Whether destination row `i` receives a source row when `count` rows
      starting at source row `srcY` are copied to destination row `dstY`,
      clipped to the source's `srcRows` rows. */
  predicate Copies(i: int, srcRows: nat, srcY: int, dstY: int, count: int) {
    dstY <= i < dstY + count && 0 <= i - dstY + srcY < srcRows
  }

  /** A full-width blit of rows, clipped to both the source and the
      destination: each destination row inside the copied window takes the
      matching source row, every other row is left as it was. */
  function BlitRows<T>(dst: seq<T>, src: seq<T>, srcY: int, dstY: int, count: int): (r: seq<T>)
    ensures |r| == |dst|
    ensures forall i :: 0 <= i < |r| ==>
              r[i] == if Copies(i, |src|, srcY, dstY, count) then src[i - dstY + srcY] else dst[i]
    decreases |dst|
  {
    if |dst| == 0 then []
    else
      var last := |dst| - 1;
      var row := if Copies(last, |src|, srcY, dstY, count) then src[last - dstY + srcY] else dst[last];
      BlitRows(dst[..last], src, srcY, dstY, count) + [row]
  }

  /** The bitmap `BitmapHelper::CreateBitmap` returns, with every pixel set
      to `blank`, which stands for whatever that helper leaves in a new
      bitmap. */
  function NewBitmap(w: nat, h: nat, format: Gfx.PixelFormat, blank: nat): (r: Gfx.Bitmap)
    requires 1 <= format.bytesPerPixel <= 4 && blank < UnsignedRange(format.bytesPerPixel)
    ensures r.Valid() && r.w == w && r.h == h && r.format == format && r.clip == Gfx.FullClip(w, h)
  {
    Gfx.Bitmap(w, h, format, seq(h, _ => seq(w, _ => blank)), Gfx.FullClip(w, h))
  }

  /** The re-centring step of `prepare_screen_for_transition_in`: a snapshot
      shorter than the viewport is copied into a new buffer of the viewport's
      height, padded evenly above and below (the odd row going below); a
      taller one is cropped evenly to the viewport's height; one of the same
      height is kept as it is. The width and pixel format never change. */
  function Recentre(b: Gfx.Bitmap, vh: nat, blank: nat): (r: Gfx.Bitmap)
    requires b.Valid() && blank < UnsignedRange(b.format.bytesPerPixel)
    ensures r.Valid()
    ensures r.w == b.w && r.h == vh && r.format == b.format
    ensures b.h == vh ==> r == b
    ensures b.h != vh ==> r.clip == Gfx.FullClip(b.w, vh)
    ensures b.h < vh ==> forall i :: 0 <= i < b.h ==> r.pixels[i + (vh - b.h) / 2] == b.pixels[i]
    ensures b.h > vh ==> forall i :: 0 <= i < vh ==> r.pixels[i] == b.pixels[i + (b.h - vh) / 2]
  {
    if b.h < vh then
      var canvas := NewBitmap(b.w, vh, b.format, blank);
      // (vh - h) / 2 on non-negative operands: C and Dafny division agree.
      canvas.(pixels := BlitRows(canvas.pixels, b.pixels, 0, (vh - b.h) / 2, b.h))
    else if b.h > vh then
      var canvas := NewBitmap(b.w, vh, b.format, blank);
      canvas.(pixels := BlitRows(canvas.pixels, b.pixels, (b.h - vh) / 2, 0, b.h))
    else b
  }

  /** Cropping a padded snapshot back to its own height restores its
      pixels: padding and cropping use the same half-offset. */
  lemma CropUndoesPad(b: Gfx.Bitmap, vh: nat, blank: nat, blank': nat)
    requires b.Valid() && b.h < vh
    requires blank < UnsignedRange(b.format.bytesPerPixel) && blank' < UnsignedRange(b.format.bytesPerPixel)
    ensures var back := Recentre(Recentre(b, vh, blank), b.h, blank');
            back.pixels == b.pixels && back.w == b.w && back.h == b.h && back.format == b.format
  {
    var padded := Recentre(b, vh, blank);
    var back := Recentre(padded, b.h, blank');
    assert (padded.h - b.h) / 2 == (vh - b.h) / 2;
    forall i | 0 <= i < b.h
      ensures back.pixels[i] == b.pixels[i]
    {
      assert back.pixels[i] == padded.pixels[i + (vh - b.h) / 2];
    }
  }

  /** A snapshot of 100 rows shown in a 140-row viewport lands on rows
      20..119; cropped to a 60-row viewport it keeps its rows 20..79. */
  lemma CentringExample(b: Gfx.Bitmap, blank: nat)
    requires b.Valid() && b.h == 100 && blank < UnsignedRange(b.format.bytesPerPixel)
    ensures forall i :: 0 <= i < 100 ==> Recentre(b, 140, blank).pixels[i + 20] == b.pixels[i]
    ensures forall i :: 0 <= i < 60 ==> Recentre(b, 60, blank).pixels[i] == b.pixels[i + 20]
  {
  }

  /** What `prepare_screen_for_transition_in` yields: the controller with
      the re-centred snapshot still saved, and the upload request for it. */
  datatype TransitionIn = TransitionIn(ctl: Controller, upload: DriverCall)

  /** `prepare_screen_for_transition_in`: fatal when no snapshot was saved;
      otherwise the snapshot is brought to a format the driver supports
      (`toSupported`, a foreign conversion), re-centred to the main viewport's
      height, kept as the saved snapshot, and uploaded without alpha. */
  function PrepareScreenForTransitionIn(c: Controller, toSupported: Gfx.Bitmap -> Gfx.Bitmap, blank: nat): (r: Outcome<TransitionIn>)
    requires c.saved.Some? ==>
               && toSupported(c.saved.value).Valid()
               && blank < UnsignedRange(toSupported(c.saved.value).format.bytesPerPixel)
    ensures c.saved.None? ==> r == Fatal("Crossfade: buffer is null attempting transition")
    ensures c.saved.Some? ==> r.Done?
    ensures r.Done? ==>
              var n := toSupported(c.saved.value);
              var vh := c.play.mainViewport.height;
              && r.value.upload.CreateDdbFromBitmap? && !r.value.upload.hasAlpha
              && r.value.ctl == c.(saved := Some(r.value.upload.bitmap))
              && var buf := r.value.upload.bitmap;
              && buf.Valid() && buf.w == n.w && buf.h == vh && buf.format == n.format
              && (n.h == vh ==> buf == n)
              && (n.h != vh ==> buf.clip == Gfx.FullClip(n.w, vh))
              && (n.h < vh ==> forall i :: 0 <= i < n.h ==> buf.pixels[i + (vh - n.h) / 2] == n.pixels[i])
              && (n.h > vh ==> forall i :: 0 <= i < vh ==> buf.pixels[i] == n.pixels[i + (n.h - vh) / 2])
  {
    match c.saved
    case None => Fatal("Crossfade: buffer is null attempting transition")
    case Some(snapshot) =>
      var buf := Recentre(toSupported(snapshot), c.play.mainViewport.height, blank);
      Done(TransitionIn(c.(saved := Some(buf)), CreateDdbFromBitmap(buf, false)))
  }
}
